=== FILE: README.md ===
# Dataset-quality dashboard: a Dafny model

The system has two parts. A Flask back end (`backend/app.py`) accepts an
uploaded CSV or Excel file and analyses it. For every column it lists the
rows whose cell is missing and the rows whose cell is the placeholder "TBD"
or "TO BE DETERMINED", counts both, and returns the data with the missing
cells filled with "". A React front end (`frontend/src/App.jsx`) uploads the
file and tracks the request in its `file`, `loading`, `error` and `analysis`
state. It then shows the data in a grid. Each grid cell is painted orange
(TBD), red (missing) or plain, and a falsy value is shown as an em-dash.

The model has five modules:

- `Wrappers` (`wrappers.dfy`): `Option` and `Result`.
- `Text` (`text.dfy`): ASCII upper- and lower-casing, `rsplit('.', 1)` and `endswith`.
- `Backend` (`backend.dfy`): `allowed_file`, and `analyze_file` over an abstract
  table whose cells are missing, text, a number or a boolean. The loop over
  the columns is a method proved against a specification function
  (`AnalysisOf`), and lemmas state what that function promises.
  `upload_file` is the chain of early returns.
- `Frontend` (`frontend.dfy`): `getGridRows`, `getGridColumns`, the
  `renderCell` rule (as written, and corrected: see Findings), and the
  `Dashboard` class with the two handlers. `handleUpload` is split at its
  `await` into `StartUpload` and `SettleUpload`, so the pending state can be
  observed and other events can happen in between.
- `Wire` (`wire.dfy`): the JSON from the back end to the front end. It proves
  that the corrected rendering (`RenderCell`) paints each cell of an analysed
  table by that cell's own status (`Wire.GridShowsTable`). The rendering as
  written does the same only when the table has no column named "id"
  (`Wire.AsWrittenShowsTableWithoutIdColumn`). With such a column it can paint
  a cell by another row's status (`Wire.IdColumnMisplacesClassification`; see
  Findings).

Behaviour of the code worth knowing:

- A response that settles after a new file was chosen still replaces the
  analysis (`Frontend.StaleResponseIsApplied`).
- A column that is missing from `missing_positions` or `tbd_positions` makes
  `renderCell` throw a TypeError. It is not treated as an empty set.
  `RenderCell` returns `None` for this case.
- A table with zero rows and at least one column does not produce zero counts.
  `len(tbd_positions[col]) / len(df)` raises ZeroDivisionError, so the upload
  answers 500 with "division by zero".
- `if error:` tests truthiness. An analysis error with an empty message gives
  a 200 body whose `analysis` is null.
- The missing and TBD lists of a column are always disjoint: a missing cell
  prints as "nan" and is never TBD (`Backend.MissingAndTbdDisjoint`). So the
  TBD-first precedence never matters for the back end's own output.
- `allowed_file` ignores case, but the reader is chosen by a case-sensitive
  `endswith('.csv')`. So "DATA.CSV" is accepted and then read with
  `read_excel` (`Backend.UpperCaseCsvIsReadAsExcel`).
- A number 0 or a `false` cell is falsy in the browser, so it is shown as the
  em-dash just like a missing cell (`Wire.GridShowsTable`).

## Model

| member | source | states |
|---|---|---|
| `Text.AfterLastDot` | backend/app.py:19 | None iff there is no '.'; otherwise the result is the suffix after a '.' and contains no '.' (`rsplit('.', 1)[1]`) |
| `Text.AfterLastDotAt` | backend/app.py:19 | a '.' with no '.' after it is the split point |
| `Backend.AllowedFile` | backend/app.py:18-19 | an accepted name contains a '.' and ends with three or four characters after its last '.' |
| `Backend.AllowedFileIff` | backend/app.py:11-19 | accepted iff some '.' has no '.' after it and the lower-cased text after it is csv, xlsx or xls |
| `Backend.UpperCaseExtensionAllowed` | backend/app.py:18-19 | `a.CSV` is accepted |
| `Backend.LastExtensionDecides` | backend/app.py:18-19 | `x.tar.csv` is accepted and `a.csv.txt` is rejected |
| `Backend.NoDotRejected` | backend/app.py:18-19 | `csv`, which has no dot, is rejected |
| `Backend.Positions` | backend/app.py:35 | the list holds exactly the row numbers where the mask holds, strictly ascending |
| `Backend.PositionsLength` | backend/app.py:46-48 | the list is as long as the mask's count (`isna().sum()`) |
| `Backend.AscendingListIsUnique` | backend/app.py:35-39 | two ascending lists with the same members are equal, so each position list is the only ascending list of its rows |
| `Backend.IsTbd` | backend/app.py:38 | the TBD test behind `PositionsExact`: only a text cell can be TBD, and only one of 3 or 16 characters ("TBD", "TO BE DETERMINED" in any case) |
| `Backend.PositionsExact` | backend/app.py:33-39 | row i is in `missing_positions[c]` iff its cell is missing, and in `tbd_positions[c]` iff its upper-cased text is TBD or TO BE DETERMINED; both lists ascend |
| `Backend.CountsAreListLengths` | backend/app.py:46-53 | `missing_values[c]` and `tbd_values[c]` equal the lengths of the matching position lists |
| `Backend.MissingAndTbdDisjoint` | backend/app.py:35-39 | no row is in both lists of a column |
| `Backend.ShapeOfAnalysis` | backend/app.py:43-45 | `total_rows` is the row count, `total_columns` equals the length of `columns`, `columns` keeps file order, and every per-column map has exactly the columns as keys |
| `Backend.FilledDataKeepsPresentCells` | backend/app.py:68 | one record per row; a missing cell becomes "" and every other cell is kept |
| `Backend.CollectPositions` | backend/app.py:30-39 | the loop over the columns fills both position dictionaries with exactly the specified lists |
| `Backend.PositionMapsAgree` | backend/app.py:30-39 | maps built column by column equal the comprehensions that specify them |
| `Backend.ReadFile` | backend/app.py:24-27 | a path ending in lower-case ".csv" is read with `read_csv`, every other path with `read_excel`; so a path that ends in ".csv" only after lower-casing goes to the Excel reader |
| `Backend.ReaderChoice` | backend/app.py:24-27 | when the readers differ, `read_csv`'s result is returned exactly for a path ending in lower-case ".csv" |
| `Backend.UpperCaseCsvIsReadAsExcel` | backend/app.py:24-27 | "DATA.CSV" is accepted by `allowed_file` but read with the Excel reader |
| `Backend.AnalysisOf` | backend/app.py:42-69 | the analysis dictionary that `AnalyzeFile` returns and the lemmas above describe; it holds one data record per row and `total_columns` equals the number of column names |
| `Backend.AnalyzeFile` | backend/app.py:21-72 | returns the reader's error, or "division by zero" for zero rows with some column, or exactly `AnalysisOf` the table |
| `Backend.UploadFile` | backend/app.py:74-97 | checks in order: 400 "No file part", 400 "No selected file", 400 "File type not allowed", then 500 with a non-empty analysis error, else 200 with the analysis; an error body always carries a non-empty message |
| `Backend.Respond` | backend/app.py:88-95 | 500 with the error as given exactly when the analysis failed with a non-empty message; otherwise 200 with the fixed success message, carrying the analysis iff there is one |
| `Frontend.GridRows` | frontend/src/App.jsx:105-111 | `[]` without analysis or data; else one row per data entry in order, with every source field kept and `id = k + 1` unless the source has its own `id` |
| `Frontend.SyntheticIdsAreDistinct` | frontend/src/App.jsx:107-110 | without a source `id` field the ids are k + 1, so they are pairwise distinct |
| `Frontend.GridColumns` | frontend/src/App.jsx:69-75 | `[]` without analysis or columns; else one descriptor per column in order, with field and headerName both equal to the column name |
| `Frontend.Shown` | frontend/src/App.jsx:79 | the shown value is always truthy, and is either the cell's value or the em-dash |
| `Frontend.DisplayRule` | frontend/src/App.jsx:79 | the shown value is always truthy; it equals the cell value iff that value is truthy, and is the em-dash for "", null, undefined and 0 |
| `Frontend.RowKey` | frontend/src/App.jsx:77-78 | `row.id - 1`: NaN exactly when `row.id` converts to NaN, otherwise one less than the converted id |
| `Frontend.RowKeyOfSyntheticId` | frontend/src/App.jsx:77-78 | for a grid row whose data has no `id` field, `id` is k + 1 and `row.id - 1` is the row's position k |
| `Frontend.Paint` | frontend/src/App.jsx:88-98 | the styling behind both `RenderCell` functions: orange background, orange text and italics go together and come from the TBD status alone; red needs the missing status; the shown value is truthy |
| `Frontend.RenderCellAsWritten` | frontend/src/App.jsx:76-99 | throws iff the column lacks a position list; orange background, orange text and italics iff `row.id - 1` is in the TBD list; red iff it is not but is in the missing list; transparent iff it is in neither; shows the value or the em-dash |
| `Frontend.RenderCell` | frontend/src/App.jsx:76-99 | throws iff the column lacks a position list; orange background, orange text and italics iff the row's position is in the TBD list, whatever the missing list says; red iff not TBD and missing; transparent otherwise; shows the value, or the em-dash when it is falsy |
| `Frontend.RenderingKeepsRow` | frontend/src/App.jsx:79-98 | a truthy value is shown unchanged and a falsy one as the em-dash |
| `Frontend.AsWrittenAgreesWithoutIdField` | frontend/src/App.jsx:77-78 | when the source row has no `id` field, `row.id - 1` is its position and both renderings agree |
| `Frontend.AgeScenario` | frontend/src/App.jsx:76-99 | rendered as written, for one "age" column: 30 is plain, null is red and shows the em-dash, and "TBD" is orange, italic and shown as is |
| `Frontend.ErrorMessage` | frontend/src/App.jsx:63 | never empty; the service's error when it is non-empty, otherwise the fixed fallback |
| `Frontend.Dashboard.constructor` | frontend/src/App.jsx:29-33 | starts with no file, not loading, no analysis, no error, and the first tab |
| `Frontend.Dashboard.AnalyzeDisabled` | frontend/src/App.jsx:205 | the Analyze button is enabled iff a file is chosen and no request is pending |
| `Frontend.Dashboard.HandleFileChange` | frontend/src/App.jsx:37-41 | `file` becomes the first selected file (none if nothing is selected) and `error` is cleared; `loading` and `analysis` are unchanged; choosing a file while nothing is pending enables the Analyze button |
| `Frontend.Dashboard.StartUpload` | frontend/src/App.jsx:43-53 | without a file: sets the "Please select a file first" error, sends nothing, leaves `loading` and `analysis` alone; with a file: sends it, sets `loading` and clears `error`. While the button is enabled (a file and not loading), a click sends |
| `Frontend.Dashboard.SettleUpload` | frontend/src/App.jsx:55-66 | `loading` becomes false; on success `analysis` becomes the response's analysis; on failure `error` becomes the service's message or the fallback and `analysis` is kept; the current file is not checked; with a file chosen, the Analyze button is enabled again |
| `Frontend.Dashboard.HandleUpload` | frontend/src/App.jsx:43-67 | one whole upload: the no-file error, or the pending state followed by the success or failure state |
| `Frontend.StaleResponseIsApplied` | frontend/src/App.jsx:37-66 | after a file is sent, choosing a second file and then settling the first request keeps the second file and shows the first request's analysis |
| `Frontend.Dashboard.SelectTab` | frontend/src/App.jsx:238 | sets the active tab and nothing else |
| `Wire.ServiceErrorShownVerbatim` | frontend/src/App.jsx:62-63 | an error reply of the back end rejects the request, and its message becomes the shown error word for word |
| `Wire.PayloadPositions` | frontend/src/App.jsx:77-78 | the position lists arrive unchanged, so membership is the cell's own missing/TBD status |
| `Wire.SentRecord` | backend/app.py:68 | the JSON record sent for a table row holds each cell's filled value |
| `Wire.GridRowValue` | frontend/src/App.jsx:105-111 | a table's grid row holds each cell's filled value |
| `Wire.ShownValue` | frontend/src/App.jsx:79 | a filled cell's rendered child is the em-dash iff the cell is missing, "", 0 or false, otherwise its value |
| `Wire.GridShowsTable` | frontend/src/App.jsx:69-111 | for an analysed table, the grid has a row per table row and a column per table column, and every cell is painted by its own TBD/missing status and shows its value or the em-dash |
| `Wire.AsWrittenShowsTableWithoutIdColumn` | frontend/src/App.jsx:76-99 | without an "id" column, the rendering as written gives the same view |
| `Wire.IdTablePositions` | backend/app.py:33-39 | the back end lists row 0 as TBD in the "name" column and lists no row 4 in either of its lists |
| `Wire.IdTableRowKey` | frontend/src/App.jsx:77-78 | the table's `id` value overrides the synthetic id, so `row.id - 1` is 4 for row 0 |
| `Wire.UnlistedKeyIsTransparent` | frontend/src/App.jsx:77-94 | a cell whose `row.id - 1` is in neither list is painted transparent by the rendering as written |
| `Wire.IdTableRenderedByPosition` | frontend/src/App.jsx:76-99 | rendered by its position, the "TBD" cell of row 0 gets the orange TBD view |
| `Wire.IdColumnMisplacesClassification` | frontend/src/App.jsx:77-78 | for a table the back end produces with a column named "id", a TBD cell is painted transparent as written, but orange when rendered by position |

## Findings

| source | as written | input that shows it | evidently intended | confidence | as-written member | corrected member |
|---|---|---|---|---|---|---|
| frontend/src/App.jsx:77-78 | the cell's position is `params.row.id - 1`, and the spread `...row` at line 109 lets a source field named `id` replace the synthetic id | an uploaded table with columns `id`, `name` and one row `id = 5`, `name = "TBD"`: the back end sends `tbd_positions = {"id": [], "name": [0]}`, the grid row's `id` is 5, position 4 is probed, and the "name" cell is painted transparent instead of orange | classify the cell by its row's position in `analysis.data` | not executed | `Frontend.RenderCellAsWritten`, `Wire.IdColumnMisplacesClassification` | `Frontend.RenderCell`, `Wire.GridShowsTable` |

## Left out

- pandas parsing (`read_csv`, `read_excel`) is not modelled. The outcome of each reader on the saved file is a parameter (`Backend.Readers`). A table is assumed rectangular, as a DataFrame is.
- `secure_filename`, saving the file, creating the upload folder, Flask routing and CORS are I/O and framework plumbing. The sanitised name is a parameter of `UploadFile`. A failure while saving is not modelled.
- Percentages and `data_types` are left out: they are floating point and dtype strings that are only displayed, and `toFixed(1)` is display formatting. What they do model is the zero-row division, as the "division by zero" error.
- Upper- and lower-casing cover ASCII only. Python's full Unicode mapping is not modelled; for example, 'ı' (U+0131, dotless i) upper-cases to 'I' in Python, so "to be determıned" is TBD for the back end but not for this model.
- Position lists hold DataFrame index labels (`.index.tolist()`). The model assumes the default RangeIndex, so labels are row numbers 0, 1, and so on. For example, `read_csv` makes the first column the index when the header has one field fewer than the data rows, and the lists then hold those labels instead.
- Cell string forms: only text cells can match TBD. The model takes it that numbers and booleans never print as "TBD".
- Frontend.StringToNumber: follows JavaScript's ToNumber only for "" and plain decimal digits. Signs, decimals, exponents, hex literals, "Infinity" and surrounding white space are treated as NaN. This matters only for a source `id` field holding such a string.
- NaN, objects and arrays as JSON values are not modelled. A non-string `error` field in an error body is not modelled either; the back end always sends a string.
- The axios POST, its URL and its headers are modelled only as the outcome of the request (`Frontend.Outcome`). Transport timeouts and retries are not part of this code.
- The payload fields that the front end only displays (`total_rows`, `total_columns`, the counts, the percentages and `data_types`) are not part of `Frontend.Payload`. An absent `missing_positions` or `tbd_positions` object behaves like an empty one here, because both throw.
- The shown value of a cell is the child handed to React. React renders a `true` child as nothing, so a cell holding `true` appears empty on screen; the model stops at the child.
- JSX layout, MUI components, the theme, the media query, colour strings beyond the three-way classification, `flex` and `minWidth` are declarative presentation.
- DataGrid pagination (`pageSize`, `rowsPerPageOptions`) lives in the MUI library.
- The file input's `accept=".csv,.xlsx,.xls"` is a browser-side filter and is not modelled.
- React's scheduling and batching of state updates are not modelled. Each handler's updates are applied in order.

=== FILE: backend.dfy ===
/**
 * The Flask back end (backend/app.py): the upload validator, the per-column
 * missing/TBD analysis of a parsed table, and the early-return checks of the
 * upload endpoint.
 *
 * pandas is not modelled: a parsed file is a `Table` whose rows are numbered
 * 0, 1, ... (the default RangeIndex) and whose cells are missing (NaN) or
 * hold a string, a number or a boolean.
 */
module Backend {
  import opened Wrappers
  import opened Text

  // ---------------------------------------------------------------------------
  // Upload validation
  // ---------------------------------------------------------------------------

  const AllowedExtensions: set<string> := {"csv", "xlsx", "xls"}

  /**
   * `allowed_file`: there is a '.' and the lower-cased text after the last one
   * is allowed, so an accepted name ends with a '.' and three or four more
   * characters.
   */
  predicate AllowedFile(filename: string): (ok: bool)
    ensures ok ==> '.' in filename && |AfterLastDot(filename).value| in {3, 4}
  {
    '.' in filename && Lower(AfterLastDot(filename).value) in AllowedExtensions
  }

  /** The extension is the text after the LAST dot, compared case-insensitively. */
  lemma AllowedFileIff(filename: string)
    ensures AllowedFile(filename) <==>
      exists i :: 0 <= i < |filename| && filename[i] == '.' && '.' !in filename[i + 1..] &&
                  Lower(filename[i + 1..]) in AllowedExtensions
  {
    if AllowedFile(filename) {
      var t := AfterLastDot(filename).value;
      var i := |filename| - |t| - 1;
      assert filename[i + 1..] == t;
    }
    if exists i :: 0 <= i < |filename| && filename[i] == '.' && '.' !in filename[i + 1..] &&
                   Lower(filename[i + 1..]) in AllowedExtensions {
      var i :| 0 <= i < |filename| && filename[i] == '.' && '.' !in filename[i + 1..] &&
               Lower(filename[i + 1..]) in AllowedExtensions;
      AfterLastDotAt(filename, i);
    }
  }

  /** `a.CSV` passes: only the text after the dot is compared, lower-cased. */
  lemma UpperCaseExtensionAllowed()
    ensures AllowedFile("a.CSV")
  {
    AfterLastDotAt("a.CSV", 1);
    assert "a.CSV"[2..] == "CSV";
    assert Lower("CSV") == "csv";
  }

  /** `x.tar.csv` passes and `a.csv.txt` does not: only the last extension counts. */
  lemma LastExtensionDecides()
    ensures AllowedFile("x.tar.csv") && !AllowedFile("a.csv.txt")
  {
    AfterLastDotAt("x.tar.csv", 5);
    assert "x.tar.csv"[6..] == "csv";
    assert Lower("csv") == "csv";
    AfterLastDotAt("a.csv.txt", 5);
    assert "a.csv.txt"[6..] == "txt";
    assert Lower("txt") == "txt";
  }

  /** A name without a dot, such as `csv`, never passes. */
  lemma NoDotRejected()
    ensures !AllowedFile("csv")
  {
    assert "csv"[0] != '.' && "csv"[1] != '.' && "csv"[2] != '.';
  }

  // ---------------------------------------------------------------------------
  // The parsed table
  // ---------------------------------------------------------------------------

  /** A pandas cell: NaN, a string, a number or a boolean. */
  datatype Cell = Missing | Text(text: string) | Number(value: real) | Boolean(flag: bool)

  /** A parsed DataFrame: column names in file order and one record per row. */
  datatype Table = Table(columns: seq<string>, rows: seq<map<string, Cell>>)

  /** A DataFrame is rectangular: every row has exactly the table's columns. */
  predicate WellFormed(t: Table)
  {
    forall i :: 0 <= i < |t.rows| ==> t.rows[i].Keys == set c | c in t.columns
  }

  /** The placeholder spellings, compared after upper-casing. */
  const TbdSpellings: set<string> := {"TBD", "TO BE DETERMINED"}

  /**
   * The TBD test: `astype(str).str.upper().isin(['TBD', 'TO BE DETERMINED'])`.
   * Only text can match: a missing cell prints as "nan", a number as digits and
   * a boolean as "True" or "False".
   */
  predicate IsTbd(cell: Cell): (tbd: bool)
    ensures tbd ==> cell.Text? && |cell.text| in {3, 16}
  {
    cell.Text? && Upper(cell.text) in TbdSpellings
  }

  /** `df[column].isna()`, row by row. */
  function MissingMask(t: Table, column: string): seq<bool>
    requires WellFormed(t) && column in t.columns
  {
    seq(|t.rows|, i requires 0 <= i < |t.rows| => t.rows[i][column].Missing?)
  }

  /** The TBD mask of app.py:38, row by row. */
  function TbdMask(t: Table, column: string): seq<bool>
    requires WellFormed(t) && column in t.columns
  {
    seq(|t.rows|, i requires 0 <= i < |t.rows| => IsTbd(t.rows[i][column]))
  }

  /** Strictly increasing, hence duplicate-free. */
  ghost predicate Ascending(xs: seq<nat>)
  {
    forall a, b :: 0 <= a < b < |xs| ==> xs[a] < xs[b]
  }

  /** `df[mask].index.tolist()`: the row numbers where `mask` holds, in row order. */
  function Positions(mask: seq<bool>): (r: seq<nat>)
    ensures forall i: nat :: i in r <==> i < |mask| && mask[i]
    ensures Ascending(r)
  {
    if |mask| == 0 then []
    else
      var init := Positions(mask[..|mask| - 1]);
      assert forall k :: 0 <= k < |init| ==> init[k] < |mask| - 1 by {
        forall k | 0 <= k < |init| ensures init[k] < |mask| - 1 {
          assert init[k] in init;
        }
      }
      init + (if mask[|mask| - 1] then [|mask| - 1] else [])
  }

  /** `mask.sum()`: the number of rows where `mask` holds. */
  function CountTrue(mask: seq<bool>): nat
  {
    if |mask| == 0 then 0
    else CountTrue(mask[..|mask| - 1]) + (if mask[|mask| - 1] then 1 else 0)
  }

  /** The position list is as long as the mask's count. */
  lemma {:induction false} PositionsLength(mask: seq<bool>)
    ensures |Positions(mask)| == CountTrue(mask)
  {
    if |mask| > 0 {
      PositionsLength(mask[..|mask| - 1]);
    }
  }

  /**
   * `Positions(mask)` is the ONLY ascending list holding exactly the rows where
   * `mask` holds.
   */
  lemma {:induction false} AscendingListIsUnique(xs: seq<nat>, ys: seq<nat>)
    requires Ascending(xs) && Ascending(ys)
    requires forall v: nat :: v in xs <==> v in ys
    ensures xs == ys
    decreases |xs|
  {
    if xs != [] || ys != [] {
      assert xs != [] && ys != [] by {
        if xs != [] { assert xs[0] in ys; }
        if ys != [] { assert ys[0] in xs; }
      }
      assert xs[0] in ys && ys[0] in xs;
      forall v: nat ensures v in xs[1..] <==> v in ys[1..] {
        if v in xs[1..] {
          var j :| 1 <= j < |xs| && xs[j] == v;
          assert v in ys && v != ys[0];
        }
        if v in ys[1..] {
          var j :| 1 <= j < |ys| && ys[j] == v;
          assert v in xs && v != xs[0];
        }
      }
      AscendingListIsUnique(xs[1..], ys[1..]);
      assert xs == [xs[0]] + xs[1..] && ys == [ys[0]] + ys[1..];
    }
  }

  // ---------------------------------------------------------------------------
  // analyze_file
  // ---------------------------------------------------------------------------

  /** The fields of the analysis that the model keeps (percentages and dtypes are left out). */
  datatype Analysis = Analysis(
    totalRows: nat,
    totalColumns: nat,
    columns: seq<string>,
    missingValues: map<string, nat>,
    tbdValues: map<string, nat>,
    missingPositions: map<string, seq<nat>>,
    tbdPositions: map<string, seq<nat>>,
    data: seq<map<string, Cell>>)

  function MissingPositionsOf(t: Table): map<string, seq<nat>>
    requires WellFormed(t)
  {
    map c | c in t.columns :: Positions(MissingMask(t, c))
  }

  function TbdPositionsOf(t: Table): map<string, seq<nat>>
    requires WellFormed(t)
  {
    map c | c in t.columns :: Positions(TbdMask(t, c))
  }

  /** `fillna('')`: a missing cell becomes the empty string, any other cell is kept. */
  function Fill(cell: Cell): Cell
  {
    if cell.Missing? then Text("") else cell
  }

  /** `df.fillna('').to_dict('records')`. */
  function FilledRecords(t: Table): seq<map<string, Cell>>
  {
    seq(|t.rows|, i requires 0 <= i < |t.rows| => map c | c in t.rows[i] :: Fill(t.rows[i][c]))
  }

  /** The analysis dictionary built at app.py:42-69 for a table that does not raise. */
  function AnalysisOf(t: Table): (a: Analysis)
    requires WellFormed(t)
    ensures |a.data| == a.totalRows && a.totalColumns == |a.columns|
  {
    var tbd := TbdPositionsOf(t);
    Analysis(|t.rows|, |t.columns|, t.columns, MissingCounts(t), Lengths(tbd), MissingPositionsOf(t), tbd, FilledRecords(t))
  }

  /** `int(df[col].isna().sum())` for every column. */
  function MissingCounts(t: Table): map<string, nat>
    requires WellFormed(t)
  {
    map c | c in t.columns :: CountTrue(MissingMask(t, c))
  }

  /** `len(positions[col])` for every column. */
  function Lengths(positions: map<string, seq<nat>>): map<string, nat>
  {
    map c | c in positions :: |positions[c]|
  }

  /**
   * `len(tbd_positions[col]) / len(df)` is a Python int division: with zero rows
   * and at least one column it raises ZeroDivisionError.
   */
  predicate DividesByZero(t: Table)
  {
    |t.rows| == 0 && |t.columns| > 0
  }

  /** `str(ZeroDivisionError)`. */
  const DivisionByZero: string := "division by zero"

  /** What `analyze_file` returns once the file has been read (or failed to be). */
  function AnalyzeOutcome(read: Result<Table, string>): Result<Analysis, string>
    requires read.Success? ==> WellFormed(read.value)
  {
    match read
    case Failure(e) => Failure(e)
    case Success(t) => if DividesByZero(t) then Failure(DivisionByZero) else Success(AnalysisOf(t))
  }

  /** Every position list is exactly the ascending list of rows whose cell is missing / TBD. */
  lemma PositionsExact(t: Table, column: string, i: nat)
    requires WellFormed(t) && column in t.columns
    ensures var a := AnalysisOf(t);
      && Ascending(a.missingPositions[column]) && Ascending(a.tbdPositions[column])
      && (i in a.missingPositions[column] <==> i < |t.rows| && t.rows[i][column].Missing?)
      && (i in a.tbdPositions[column] <==> i < |t.rows| && IsTbd(t.rows[i][column]))
  {
  }

  /** Both counts are the lengths of their position lists. */
  lemma CountsAreListLengths(t: Table, column: string)
    requires WellFormed(t) && column in t.columns
    ensures var a := AnalysisOf(t);
      && a.missingValues[column] == |a.missingPositions[column]|
      && a.tbdValues[column] == |a.tbdPositions[column]|
  {
    PositionsLength(MissingMask(t, column));
  }

  /** A missing cell is never TBD, so the two position lists of a column are disjoint. */
  lemma MissingAndTbdDisjoint(t: Table, column: string)
    requires WellFormed(t) && column in t.columns
    ensures var a := AnalysisOf(t);
      forall i: nat :: !(i in a.missingPositions[column] && i in a.tbdPositions[column])
  {
  }

  /** Totals and column order, and the maps are keyed by exactly the columns. */
  lemma ShapeOfAnalysis(t: Table)
    requires WellFormed(t)
    ensures var a := AnalysisOf(t);
      && a.totalRows == |t.rows| && a.totalColumns == |a.columns| && a.columns == t.columns
      && a.missingPositions.Keys == a.tbdPositions.Keys == a.missingValues.Keys
         == a.tbdValues.Keys == set c | c in t.columns
  {
  }

  /** In `data` a missing cell reads "" and every other cell is kept, one record per row, in order. */
  lemma FilledDataKeepsPresentCells(t: Table, i: nat, column: string)
    requires WellFormed(t) && i < |t.rows| && column in t.columns
    ensures var a := AnalysisOf(t);
      && |a.data| == |t.rows| && a.data[i].Keys == t.rows[i].Keys
      && a.data[i][column] == (if t.rows[i][column].Missing? then Text("") else t.rows[i][column])
  {
  }

  /** app.py:30-39: the loop over `df.columns` that fills both position dictionaries. */
  method CollectPositions(t: Table) returns (missing: map<string, seq<nat>>, tbd: map<string, seq<nat>>)
    requires WellFormed(t)
    ensures missing == MissingPositionsOf(t) && tbd == TbdPositionsOf(t)
  {
    missing, tbd := map[], map[];
    for j := 0 to |t.columns|
      invariant missing.Keys == tbd.Keys == set c | c in t.columns[..j]
      invariant forall c :: c in missing ==> c in t.columns && missing[c] == Positions(MissingMask(t, c))
      invariant forall c :: c in tbd ==> c in t.columns && tbd[c] == Positions(TbdMask(t, c))
    {
      var column := t.columns[j];
      assert t.columns[..j + 1] == t.columns[..j] + [column];
      missing := missing[column := Positions(MissingMask(t, column))];
      tbd := tbd[column := Positions(TbdMask(t, column))];
    }
    assert t.columns[..|t.columns|] == t.columns;
    PositionMapsAgree(t, missing, tbd);
  }

  /** Maps built column by column agree with the comprehensions that specify them. */
  lemma PositionMapsAgree(t: Table, missing: map<string, seq<nat>>, tbd: map<string, seq<nat>>)
    requires WellFormed(t)
    requires missing.Keys == tbd.Keys == set c | c in t.columns
    requires forall c :: c in missing ==> c in t.columns && missing[c] == Positions(MissingMask(t, c))
    requires forall c :: c in tbd ==> c in t.columns && tbd[c] == Positions(TbdMask(t, c))
    ensures missing == MissingPositionsOf(t) && tbd == TbdPositionsOf(t)
  {
    var m := MissingPositionsOf(t);
    assert m.Keys == missing.Keys;
    forall c | c in m ensures m[c] == missing[c] { }
    var b := TbdPositionsOf(t);
    assert b.Keys == tbd.Keys;
    forall c | c in b ensures b[c] == tbd[c] { }
  }

  /** The outcome of each pandas reader on the saved file (the readers themselves are not modelled). */
  datatype Readers = Readers(csv: Result<Table, string>, excel: Result<Table, string>)

  predicate ReadersWellFormed(readers: Readers)
  {
    && (readers.csv.Success? ==> WellFormed(readers.csv.value))
    && (readers.excel.Success? ==> WellFormed(readers.excel.value))
  }

  /** app.py:24-27: `read_csv` when the path ends in ".csv" (case-sensitive), otherwise `read_excel`. */
  function ReadFile(path: string, readers: Readers): (read: Result<Table, string>)
    ensures read == readers.csv || read == readers.excel
    ensures EndsWith(path, ".csv") ==> read == readers.csv
    ensures !EndsWith(path, ".csv") ==> read == readers.excel
    ensures EndsWith(Lower(path), ".csv") && !EndsWith(path, ".csv") ==> read == readers.excel
  {
    if EndsWith(path, ".csv") then readers.csv else readers.excel
  }

  /** When the two readers give different results, `read_csv` is used exactly for a path ending in lower-case ".csv". */
  lemma ReaderChoice(path: string, readers: Readers)
    requires readers.csv != readers.excel
    ensures ReadFile(path, readers) == readers.csv <==> EndsWith(path, ".csv")
  {
  }

  /**
   * The extension check is case-insensitive but the reader choice is not: an
   * upper-case ".CSV" file passes validation and is then read as a spreadsheet.
   */
  lemma UpperCaseCsvIsReadAsExcel(readers: Readers)
    ensures AllowedFile("DATA.CSV")
    ensures ReadFile(SavedPath("DATA.CSV"), readers) == readers.excel
  {
    AfterLastDotAt("DATA.CSV", 4);
    assert Lower("CSV") == "csv";
    assert SavedPath("DATA.CSV")[|SavedPath("DATA.CSV")| - 4..] == ".CSV";
  }

  /** `analyze_file`: read the file, collect positions, build the analysis or report the error. */
  method AnalyzeFile(path: string, readers: Readers) returns (result: Result<Analysis, string>)
    requires ReadersWellFormed(readers)
    ensures result == AnalyzeOutcome(ReadFile(path, readers))
    ensures ReadFile(path, readers).Failure? ==> result == Failure(ReadFile(path, readers).error)
    ensures result.Success? ==> result.value.totalRows > 0 || result.value.totalColumns == 0
  {
    var read := ReadFile(path, readers);
    if read.Failure? {
      return Failure(read.error);
    }
    var t := read.value;
    var missing, tbd := CollectPositions(t);
    if DividesByZero(t) {
      return Failure(DivisionByZero);
    }
    var analysis := Analysis(|t.rows|, |t.columns|, t.columns, MissingCounts(t), Lengths(tbd), missing, tbd, FilledRecords(t));
    return Success(analysis);
  }

  // ---------------------------------------------------------------------------
  // upload_file
  // ---------------------------------------------------------------------------

  const UploadFolder: string := "uploads"

  /** `os.path.join(UPLOAD_FOLDER, filename)`. */
  function SavedPath(savedName: string): string
  {
    UploadFolder + "/" + savedName
  }

  /** The `file` part of a multipart request. */
  datatype FilePart = FilePart(filename: string)

  /** A JSON response body. */
  datatype Body = ErrorBody(error: string) | Uploaded(message: string, analysis: Option<Analysis>)

  datatype Reply = Reply(status: nat, body: Body)

  const NoFilePart: string := "No file part"
  const NoSelectedFile: string := "No selected file"
  const TypeNotAllowed: string := "File type not allowed"
  const UploadedMessage: string := "File uploaded successfully"

  /**
   * app.py:88-95. `if error:` tests truthiness: an error with an empty message
   * falls through to the success body, whose analysis is then null.
   */
  function Respond(analyzed: Result<Analysis, string>): (reply: Reply)
    ensures reply.status in {200, 500}
    ensures reply.status == 500 <==> analyzed.Failure? && analyzed.error != ""
    ensures reply.body.ErrorBody? <==> reply.status == 500
    ensures reply.status == 500 ==> reply.body.error == analyzed.error && reply.body.error != ""
    ensures reply.status == 200 ==>
      && reply.body.Uploaded?
      && reply.body.message == UploadedMessage
      && (reply.body.analysis.Some? <==> analyzed.Success?)
      && (analyzed.Success? ==> reply.body.analysis.value == analyzed.value)
  {
    match analyzed
    case Failure(e) =>
      if e != "" then Reply(500, ErrorBody(e)) else Reply(200, Uploaded(UploadedMessage, None))
    case Success(a) => Reply(200, Uploaded(UploadedMessage, Some(a)))
  }

  /**
   * `upload_file`. `savedName` is what `secure_filename` made of the client's
   * file name; `readers` are what pandas gives on the saved file.
   */
  method UploadFile(part: Option<FilePart>, savedName: string, readers: Readers) returns (reply: Reply)
    requires ReadersWellFormed(readers)
    ensures part.None? ==> reply == Reply(400, ErrorBody(NoFilePart))
    ensures part.Some? && part.value.filename == "" ==> reply == Reply(400, ErrorBody(NoSelectedFile))
    ensures part.Some? && part.value.filename != "" && !AllowedFile(part.value.filename) ==>
      reply == Reply(400, ErrorBody(TypeNotAllowed))
    ensures part.Some? && part.value.filename != "" && AllowedFile(part.value.filename) ==>
      reply == Respond(AnalyzeOutcome(ReadFile(SavedPath(savedName), readers)))
    ensures reply.status in {200, 400, 500}
    ensures reply.status != 200 <==> reply.body.ErrorBody?
    ensures reply.body.ErrorBody? ==> reply.body.error != ""
  {
    if part.None? {
      return Reply(400, ErrorBody(NoFilePart));
    }
    var file := part.value;
    if file.filename == "" {
      return Reply(400, ErrorBody(NoSelectedFile));
    }
    if AllowedFile(file.filename) {
      var analyzed := AnalyzeFile(SavedPath(savedName), readers);
      if analyzed.Failure? && analyzed.error != "" {
        return Reply(500, ErrorBody(analyzed.error));
      }
      return Reply(200, Uploaded(UploadedMessage, if analyzed.Success? then Some(analyzed.value) else None));
    }
    return Reply(400, ErrorBody(TypeNotAllowed));
  }
}

=== FILE: frontend.dfy ===
/**
 * The React front end (frontend/src/App.jsx): the rows and column descriptors
 * handed to the data grid, the per-cell rendering rule, and the upload
 * lifecycle over the `file`, `loading`, `error` and `analysis` state cells.
 *
 * JSON values are `JsValue`s. NaN is not representable: the back end fills
 * missing cells with "" before sending them.
 */
module Frontend {
  import opened Wrappers

  datatype JsValue = Undefined | Null | Bool(b: bool) | Num(n: real) | Str(s: string)

  /** A JSON object: a row of `analysis.data`, or a row handed to the grid. */
  type Record = map<string, JsValue>

  /**
   * The parts of `response.data.analysis` this code reads. An absent position
   * map behaves like an empty one: either way `[column].includes` throws.
   */
  datatype Payload = Payload(
    columns: Option<seq<string>>,
    data: Option<seq<Record>>,
    missingPositions: map<string, seq<int>>,
    tbdPositions: map<string, seq<int>>)

  /** JavaScript's ToBoolean. */
  predicate Truthy(v: JsValue)
  {
    match v
    case Undefined => false
    case Null => false
    case Bool(b) => b
    case Num(n) => n != 0.0
    case Str(s) => s != ""
  }

  /** `obj[key]`: undefined when the key is absent. */
  function Get(r: Record, key: string): JsValue
  {
    if key in r then r[key] else Undefined
  }

  // ---------------------------------------------------------------------------
  // getGridRows / getGridColumns
  // ---------------------------------------------------------------------------

  /** `getGridRows`: `{ id: index + 1, ...row }` for each row of `analysis.data`. */
  function GridRows(analysis: Option<Payload>): (rows: seq<Record>)
    ensures analysis.None? || analysis.value.data.None? ==> rows == []
    ensures analysis.Some? && analysis.value.data.Some? ==>
      var data := analysis.value.data.value;
      && |rows| == |data|
      && (forall k :: 0 <= k < |rows| ==> rows[k].Keys == data[k].Keys + {"id"})
      && (forall k, f :: 0 <= k < |rows| && f in data[k] ==> rows[k][f] == data[k][f])
      && (forall k :: 0 <= k < |rows| && "id" !in data[k] ==> rows[k]["id"] == Num((k + 1) as real))
  {
    match analysis
    case None => []
    case Some(p) =>
      match p.data
      case None => []
      case Some(data) => seq(|data|, k requires 0 <= k < |data| => map["id" := Num((k + 1) as real)] + data[k])
  }

  /** Without a source field named "id", the row ids are 1, 2, ... and so pairwise distinct. */
  lemma SyntheticIdsAreDistinct(p: Payload, k: nat, l: nat)
    requires p.data.Some? && k < l < |p.data.value|
    requires "id" !in p.data.value[k] && "id" !in p.data.value[l]
    ensures var rows := GridRows(Some(p));
      rows[k]["id"] == Num((k + 1) as real) && rows[k]["id"] != rows[l]["id"]
  {
  }

  /** A grid column descriptor; `flex`, `minWidth` and `renderCell` are not data here. */
  datatype Column = Column(field: string, headerName: string)

  /** `getGridColumns`: one descriptor per column name, in order. */
  function GridColumns(analysis: Option<Payload>): (columns: seq<Column>)
    ensures analysis.None? || analysis.value.columns.None? ==> columns == []
    ensures analysis.Some? && analysis.value.columns.Some? ==>
      var names := analysis.value.columns.value;
      && |columns| == |names|
      && forall k :: 0 <= k < |columns| ==> columns[k].field == columns[k].headerName == names[k]
  {
    match analysis
    case None => []
    case Some(p) =>
      match p.columns
      case None => []
      case Some(names) => seq(|names|, k requires 0 <= k < |names| => Column(names[k], names[k]))
  }

  // ---------------------------------------------------------------------------
  // renderCell
  // ---------------------------------------------------------------------------

  const EmDash: string := "\U{2014}"

  /** `params.value || '—'`. */
  function Shown(v: JsValue): (shown: JsValue)
    ensures Truthy(shown)
    ensures shown == v || shown == Str(EmDash)
  {
    if Truthy(v) then v else Str(EmDash)
  }

  /** The sentinel replaces exactly the falsy values; anything else is shown as it is. */
  lemma DisplayRule(v: JsValue)
    ensures Truthy(Shown(v))
    ensures Shown(v) == v <==> Truthy(v)
    ensures Shown(v) == Str(EmDash) <==> !Truthy(v) || v == Str(EmDash)
    ensures Shown(Shown(v)) == Shown(v)
    ensures !Truthy(Str("")) && !Truthy(Null) && !Truthy(Undefined) && !Truthy(Num(0.0))
  {
  }

  datatype Background = OrangeTint | RedTint | Transparent
  datatype TextColor = Orange | Inherit

  /** What one rendered cell looks like: the three style ternaries and the value shown. */
  datatype CellView = CellView(background: Background, color: TextColor, italic: bool, shown: JsValue)

  /**
   * The `sx` ternaries of App.jsx:88-94 and the value of App.jsx:98: the TBD
   * status alone drives the orange background, the orange text and the italics.
   */
  function Paint(isMissing: bool, isTbd: bool, value: JsValue): (view: CellView)
    ensures view.italic <==> view.color == Orange
    ensures view.italic <==> view.background == OrangeTint
    ensures view.background == RedTint ==> isMissing
    ensures Truthy(view.shown)
  {
    CellView(
      if isTbd then OrangeTint else if isMissing then RedTint else Transparent,
      if isTbd then Orange else Inherit,
      isTbd,
      Shown(value))
  }

  /** JavaScript's ToNumber on a string, for "" and plain decimal digits; None is NaN. */
  function StringToNumber(s: string): Option<real>
  {
    if s == "" then Some(0.0)
    else if forall i :: 0 <= i < |s| ==> '0' <= s[i] <= '9' then Some(DigitsValue(s) as real)
    else None
  }

  function DigitsValue(s: string): nat
    requires forall i :: 0 <= i < |s| ==> '0' <= s[i] <= '9'
  {
    if s == [] then 0 else 10 * DigitsValue(s[..|s| - 1]) + (s[|s| - 1] as int - '0' as int)
  }

  /** JavaScript's ToNumber; None is NaN. */
  function ToNumber(v: JsValue): Option<real>
  {
    match v
    case Undefined => None
    case Null => Some(0.0)
    case Bool(b) => Some(if b then 1.0 else 0.0)
    case Num(n) => Some(n)
    case Str(s) => StringToNumber(s)
  }

  /** `positions.includes(x)` for a number `x` (None is NaN, which no integer equals). */
  predicate IncludesNumber(positions: seq<int>, x: Option<real>)
  {
    x.Some? && x.value.Floor as real == x.value && x.value.Floor in positions
  }

  /** `params.row.id - 1`. */
  function RowKey(row: Record): (key: Option<real>)
    ensures key.None? <==> ToNumber(Get(row, "id")).None?
    ensures key.Some? ==> key.value + 1.0 == ToNumber(Get(row, "id")).value
  {
    match ToNumber(Get(row, "id"))
    case None => None
    case Some(n) => Some(n - 1.0)
  }

  /** For a grid row whose source record has no "id" field, `row.id - 1` is the row's position. */
  lemma RowKeyOfSyntheticId(p: Payload, k: nat)
    requires p.data.Some? && k < |p.data.value| && "id" !in p.data.value[k]
    ensures RowKey(GridRows(Some(p))[k]) == Some(k as real)
    ensures Get(GridRows(Some(p))[k], "id") == Num((k + 1) as real)
  {
  }

  /**
   * `renderCell` as written: the cell's position is taken from `params.row.id - 1`.
   * None is the TypeError thrown when the column has no entry in a position map.
   */
  function RenderCellAsWritten(p: Payload, column: string, row: Record): (view: Option<CellView>)
    ensures view.None? <==> column !in p.missingPositions || column !in p.tbdPositions
    ensures view.Some? ==>
      && (view.value.background == OrangeTint <==> IncludesNumber(p.tbdPositions[column], RowKey(row)))
      && (view.value.background == RedTint <==>
            !IncludesNumber(p.tbdPositions[column], RowKey(row)) &&
            IncludesNumber(p.missingPositions[column], RowKey(row)))
      && (view.value.color == Orange <==> IncludesNumber(p.tbdPositions[column], RowKey(row)))
      && (view.value.italic <==> IncludesNumber(p.tbdPositions[column], RowKey(row)))
      && (view.value.background == Transparent <==>
            !IncludesNumber(p.tbdPositions[column], RowKey(row)) &&
            !IncludesNumber(p.missingPositions[column], RowKey(row)))
      && view.value.shown == Shown(Get(row, column))
  {
    if column !in p.missingPositions || column !in p.tbdPositions then None
    else
      var key := RowKey(row);
      Some(Paint(IncludesNumber(p.missingPositions[column], key), IncludesNumber(p.tbdPositions[column], key),
                 Get(row, column)))
  }

  /**
   * `renderCell` classifying by the row's position `index` in `analysis.data`:
   * TBD styling iff the index is in the column's TBD list (whatever the missing
   * list says), otherwise red iff it is in the missing list, otherwise none.
   */
  function RenderCell(p: Payload, column: string, index: nat, row: Record): (view: Option<CellView>)
    ensures view.None? <==> column !in p.missingPositions || column !in p.tbdPositions
    ensures view.Some? ==>
      && (view.value.background == OrangeTint <==> index in p.tbdPositions[column])
      && (view.value.color == Orange <==> index in p.tbdPositions[column])
      && (view.value.italic <==> index in p.tbdPositions[column])
      && (view.value.background == RedTint <==>
            index !in p.tbdPositions[column] && index in p.missingPositions[column])
      && (view.value.background == Transparent <==>
            index !in p.tbdPositions[column] && index !in p.missingPositions[column])
      && view.value.shown == Shown(Get(row, column))
  {
    if column !in p.missingPositions || column !in p.tbdPositions then None
    else Some(Paint(index in p.missingPositions[column], index in p.tbdPositions[column], Get(row, column)))
  }

  /**
   * What the classified cell shows: a truthy value (or the sentinel itself) as
   * it is, a falsy one as the sentinel. The row is never changed, since
   * rendering is a pure function of it.
   */
  lemma RenderingKeepsRow(p: Payload, column: string, index: nat, row: Record)
    requires column in p.missingPositions && column in p.tbdPositions
    ensures Get(row, column) == Str(EmDash) || Truthy(Get(row, column)) ==>
      RenderCell(p, column, index, row).value.shown == Get(row, column)
    ensures !Truthy(Get(row, column)) ==> RenderCell(p, column, index, row).value.shown == Str(EmDash)
  {
  }

  /** When the source row has no "id" field, `row.id - 1` is the row's position and both agree. */
  lemma AsWrittenAgreesWithoutIdField(p: Payload, column: string, k: nat)
    requires p.data.Some? && k < |p.data.value| && "id" !in p.data.value[k]
    ensures var row := GridRows(Some(p))[k];
      RenderCellAsWritten(p, column, row) == RenderCell(p, column, k, row)
  {
    RowKeyOfSyntheticId(p, k);
  }

  /**
   * The scenario of one "age" column: 30 is plain, null is red with the sentinel,
   * "TBD" is orange and shown as it is.
   */
  lemma AgeScenario()
    ensures var p := Payload(Some(["age"]),
                             Some([map["age" := Num(30.0)], map["age" := Null], map["age" := Str("TBD")]]),
                             map["age" := [1]], map["age" := [2]]);
      var rows := GridRows(Some(p));
      && RenderCellAsWritten(p, "age", rows[0]) == Some(CellView(Transparent, Inherit, false, Num(30.0)))
      && RenderCellAsWritten(p, "age", rows[1]) == Some(CellView(RedTint, Inherit, false, Str(EmDash)))
      && RenderCellAsWritten(p, "age", rows[2]) == Some(CellView(OrangeTint, Orange, true, Str("TBD")))
  {
  }

  // ---------------------------------------------------------------------------
  // The upload lifecycle
  // ---------------------------------------------------------------------------

  /** A selected file (only its identity matters here). */
  datatype File = File(name: string)

  /**
   * How the POST settles: resolved with `response.data.analysis` (None when it is
   * absent or null), or rejected with `err.response?.data?.error` (None when there
   * is no response, no body or no error field).
   */
  datatype Outcome = Resolved(analysis: Option<Payload>) | Rejected(errorField: Option<string>)

  const NoFileMessage: string := "Please select a file first"
  const UploadFailedMessage: string := "An error occurred while uploading the file"

  /** `err.response?.data?.error || 'An error occurred while uploading the file'`. */
  function ErrorMessage(errorField: Option<string>): (message: string)
    ensures message != ""
    ensures errorField.Some? && errorField.value != "" ==> message == errorField.value
    ensures errorField.None? || errorField.value == "" ==> message == UploadFailedMessage
  {
    match errorField
    case Some(e) => if e != "" then e else UploadFailedMessage
    case None => UploadFailedMessage
  }

  /** The state cells of `App` and the handlers that update them. */
  class Dashboard {
    var file: Option<File>
    var loading: bool
    var analysis: Option<Payload>
    var error: Option<string>
    var activeTab: int

    /** The initial `useState` values. */
    constructor ()
      ensures file == None && !loading && analysis == None && error == None && activeTab == 0
    {
      file, loading, analysis, error, activeTab := None, false, None, None, 0;
    }

    /** `disabled={!file || loading}` on the Analyze button. */
    predicate AnalyzeDisabled(): (disabled: bool)
      reads this
      ensures loading ==> disabled
      ensures file.None? ==> disabled
      ensures !disabled ==> file.Some? && !loading
      ensures file.Some? && !loading ==> !disabled
    {
      file.None? || loading
    }

    /** While a request is pending no error is on show. */
    predicate NoErrorWhileLoading()
      reads this
    {
      loading ==> error.None?
    }

    /** `handleFileChange`: take the first selected file (undefined if none) and clear the error. */
    method HandleFileChange(selected: seq<File>)
      modifies this
      ensures file == (if |selected| > 0 then Some(selected[0]) else None)
      ensures error == None
      ensures loading == old(loading) && analysis == old(analysis) && activeTab == old(activeTab)
      ensures NoErrorWhileLoading()
      ensures |selected| > 0 && !loading ==> !AnalyzeDisabled()
    {
      file := if |selected| > 0 then Some(selected[0]) else None;
      error := None;
    }

    /**
     * `handleUpload` up to the `await`. It sends the current file whenever there
     * is one: only the disabled button keeps a second request from starting.
     */
    method StartUpload() returns (request: Option<File>)
      modifies this
      ensures request == old(file)
      ensures file == old(file) && analysis == old(analysis) && activeTab == old(activeTab)
      ensures request.None? ==> error == Some(NoFileMessage) && loading == old(loading)
      ensures request.Some? ==> loading && error == None
      ensures !old(AnalyzeDisabled()) ==> request.Some? && NoErrorWhileLoading()
      ensures old(NoErrorWhileLoading()) && !old(loading) ==> NoErrorWhileLoading()
    {
      if file.None? {
        error := Some(NoFileMessage);
        return None;
      }
      request := file;
      loading := true;
      error := None;
    }

    /**
     * `handleUpload` after the `await`. Nothing checks that the settling request
     * is the latest one or that the file is still the one that was sent.
     */
    method SettleUpload(outcome: Outcome)
      modifies this
      ensures !loading
      ensures file == old(file) && activeTab == old(activeTab)
      ensures outcome.Resolved? ==> analysis == outcome.analysis && error == old(error)
      ensures outcome.Rejected? ==> analysis == old(analysis) && error == Some(ErrorMessage(outcome.errorField))
      ensures NoErrorWhileLoading()
      ensures file.Some? ==> !AnalyzeDisabled()
    {
      match outcome {
        case Resolved(a) => analysis := a;
        case Rejected(e) => error := Some(ErrorMessage(e));
      }
      loading := false;
    }

    /** One whole `handleUpload` whose request settles with `outcome` before anything else happens. */
    method HandleUpload(outcome: Outcome) returns (request: Option<File>)
      modifies this
      ensures request == old(file) && file == old(file) && activeTab == old(activeTab)
      ensures request.None? ==>
        error == Some(NoFileMessage) && loading == old(loading) && analysis == old(analysis)
      ensures request.Some? && outcome.Resolved? ==> !loading && error == None && analysis == outcome.analysis
      ensures request.Some? && outcome.Rejected? ==>
        !loading && error == Some(ErrorMessage(outcome.errorField)) && analysis == old(analysis)
    {
      request := StartUpload();
      if request.Some? {
        SettleUpload(outcome);
      }
    }

    /** The Tabs `onChange`: `setActiveTab(newValue)`. */
    method SelectTab(newValue: int)
      modifies this
      ensures activeTab == newValue
      ensures file == old(file) && loading == old(loading) && analysis == old(analysis) && error == old(error)
    {
      activeTab := newValue;
    }
  }

  /**
   * A response that settles after a new file was chosen still replaces the
   * analysis: there is no stale-response guard.
   */
  method StaleResponseIsApplied(first: File, second: File, stale: Payload) returns (sent: Option<File>, d: Dashboard)
    ensures sent == Some(first)
    ensures d.file == Some(second) && d.analysis == Some(stale) && !d.loading && d.error == None
  {
    d := new Dashboard();
    d.HandleFileChange([first]);
    sent := d.StartUpload();
    assert d.loading && d.AnalyzeDisabled();
    d.HandleFileChange([second]);
    d.SettleUpload(Resolved(Some(stale)));
  }
}

=== FILE: text.dfy ===
/** String helpers used by the back end: ASCII case mapping, `rsplit('.', 1)` and `endswith`. */
module Text {
  import opened Wrappers

  /** Python `str.upper()` restricted to ASCII letters. */
  function UpperChar(c: char): char
  {
    if 'a' <= c <= 'z' then (c as int - 32) as char else c
  }

  /** Python `str.lower()` restricted to ASCII letters. */
  function LowerChar(c: char): char
  {
    if 'A' <= c <= 'Z' then (c as int + 32) as char else c
  }

  function Upper(s: string): string
  {
    seq(|s|, i requires 0 <= i < |s| => UpperChar(s[i]))
  }

  function Lower(s: string): string
  {
    seq(|s|, i requires 0 <= i < |s| => LowerChar(s[i]))
  }

  /**
   * The text after the last '.', as `s.rsplit('.', 1)[1]` gives it, or None when
   * `s` holds no '.' at all (then `rsplit` returns a one-element list).
   */
  function AfterLastDot(s: string): (r: Option<string>)
    ensures r.None? <==> '.' !in s
    ensures r.Some? ==> |r.value| < |s| && s[|s| - |r.value| - 1] == '.'
    ensures r.Some? ==> s[|s| - |r.value|..] == r.value && '.' !in r.value
  {
    if |s| == 0 then None
    else if s[|s| - 1] == '.' then Some([])
    else
      var init := s[..|s| - 1];
      assert s == init + [s[|s| - 1]];
      match AfterLastDot(init)
      case None => None
      case Some(t) =>
        assert s[|s| - |t| - 1..] == init[|init| - |t|..] + [s[|s| - 1]];
        Some(t + [s[|s| - 1]])
  }

  /** A '.' with no '.' after it is the one `AfterLastDot` splits at. */
  lemma AfterLastDotAt(s: string, i: nat)
    requires i < |s| && s[i] == '.' && '.' !in s[i + 1..]
    ensures AfterLastDot(s) == Some(s[i + 1..])
  {
  }

  /** Python `s.endswith(suffix)`. */
  predicate EndsWith(s: string, suffix: string)
  {
    |suffix| <= |s| && s[|s| - |suffix|..] == suffix
  }
}

=== FILE: wire.dfy ===
/**
 * The JSON that travels from `upload_file` to `handleUpload`: how a back-end
 * analysis looks to the front end, and what the grid shows for each cell of
 * the uploaded table.
 */
module Wire {
  import opened Wrappers
  import Backend
  import Frontend
  import Text

  /** `jsonify` of one cell. */
  function ToJson(cell: Backend.Cell): Frontend.JsValue
  {
    match cell
    case Missing => Frontend.Null
    case Text(s) => Frontend.Str(s)
    case Number(n) => Frontend.Num(n)
    case Boolean(b) => Frontend.Bool(b)
  }

  /** A `to_dict('records')` row as JSON. */
  function ToRecord(r: map<string, Backend.Cell>): Frontend.Record
  {
    map c | c in r :: ToJson(r[c])
  }

  /** `analysis.data` as JSON. */
  function ToRecords(data: seq<map<string, Backend.Cell>>): seq<Frontend.Record>
  {
    seq(|data|, i requires 0 <= i < |data| => ToRecord(data[i]))
  }

  /** A position dictionary as JSON: the lists of row numbers are carried over as they are. */
  function ToPositions(positions: map<string, seq<nat>>): map<string, seq<int>>
  {
    map c | c in positions :: positions[c]
  }

  /** `response.data.analysis` as the front end reads it. */
  function ToPayload(a: Backend.Analysis): Frontend.Payload
  {
    Frontend.Payload(Some(a.columns), Some(ToRecords(a.data)), ToPositions(a.missingPositions), ToPositions(a.tbdPositions))
  }

  /** axios resolves on a 2xx status and rejects otherwise, keeping the body on `err.response`. */
  function ToOutcome(reply: Backend.Reply): Frontend.Outcome
  {
    if 200 <= reply.status < 300 then
      Frontend.Resolved(
        if reply.body.Uploaded? && reply.body.analysis.Some? then Some(ToPayload(reply.body.analysis.value))
        else None)
    else Frontend.Rejected(if reply.body.ErrorBody? then Some(reply.body.error) else None)
  }

  /** An error reply of `upload_file` (non-empty message, non-2xx status) is shown word for word. */
  lemma ServiceErrorShownVerbatim(reply: Backend.Reply)
    requires reply.status in {400, 500} && reply.body.ErrorBody? && reply.body.error != ""
    ensures ToOutcome(reply).Rejected?
    ensures Frontend.ErrorMessage(ToOutcome(reply).errorField) == reply.body.error
  {
  }

  /** Cells that reach the browser falsy: missing (sent as ""), "", the number 0 and false. */
  predicate BlankOnScreen(cell: Backend.Cell)
  {
    cell.Missing? || cell == Backend.Text("") || cell == Backend.Number(0.0) || cell == Backend.Boolean(false)
  }

  /**
   * The view the grid gives a table cell: TBD orange, missing red, the rest
   * plain; blank cells show the sentinel, the others their own value.
   */
  function ExpectedView(cell: Backend.Cell): Frontend.CellView
  {
    var tbd := Backend.IsTbd(cell);
    Frontend.CellView(
      if tbd then Frontend.OrangeTint else if cell.Missing? then Frontend.RedTint else Frontend.Transparent,
      if tbd then Frontend.Orange else Frontend.Inherit,
      tbd,
      if BlankOnScreen(cell) then Frontend.Str(Frontend.EmDash) else ToJson(cell))
  }

  /** The position lists arrive unchanged, so list membership is the cell's own status. */
  lemma PayloadPositions(t: Backend.Table, k: nat, column: string)
    requires Backend.WellFormed(t) && k < |t.rows| && column in t.columns
    ensures var p := ToPayload(Backend.AnalysisOf(t));
      && column in p.missingPositions && column in p.tbdPositions
      && (k in p.tbdPositions[column] <==> Backend.IsTbd(t.rows[k][column]))
      && (k in p.missingPositions[column] <==> t.rows[k][column].Missing?)
  {
    var a := Backend.AnalysisOf(t);
    var p := ToPayload(a);
    Backend.PositionsExact(t, column, k);
    assert p.missingPositions[column] == a.missingPositions[column];
    assert p.tbdPositions[column] == a.tbdPositions[column];
  }

  /** The grid row of a table row holds the filled value of each of its cells. */
  lemma GridRowValue(t: Backend.Table, k: nat, column: string)
    requires Backend.WellFormed(t) && k < |t.rows| && column in t.columns
    ensures var p := ToPayload(Backend.AnalysisOf(t));
      var rows := Frontend.GridRows(Some(p));
      && |rows| == |t.rows|
      && Frontend.Get(rows[k], column) == ToJson(Backend.Fill(t.rows[k][column]))
  {
    var p := ToPayload(Backend.AnalysisOf(t));
    SentRecord(t, k, column);
    assert p.data.value == ToRecords(Backend.FilledRecords(t));
  }

  /** The JSON record sent for a table row holds each cell's filled value. */
  lemma SentRecord(t: Backend.Table, k: nat, column: string)
    requires Backend.WellFormed(t) && k < |t.rows| && column in t.columns
    ensures var data := ToRecords(Backend.FilledRecords(t));
      && |data| == |t.rows|
      && column in data[k]
      && data[k][column] == ToJson(Backend.Fill(t.rows[k][column]))
  {
    var filled := Backend.FilledRecords(t);
    assert column in filled[k] && filled[k][column] == Backend.Fill(t.rows[k][column]);
    assert ToRecords(filled)[k] == ToRecord(filled[k]);
  }

  /**
   * End to end: for an analysed table, the grid has one row and one column per
   * row and column of the table, and every cell is painted by its own
   * missing/TBD status and shows its filled value (the sentinel for "").
   */
  lemma GridShowsTable(t: Backend.Table, k: nat, column: string)
    requires Backend.WellFormed(t) && k < |t.rows| && column in t.columns
    ensures var p := ToPayload(Backend.AnalysisOf(t));
      var rows := Frontend.GridRows(Some(p));
      && |rows| == |t.rows|
      && |Frontend.GridColumns(Some(p))| == |t.columns|
      && Frontend.RenderCell(p, column, k, rows[k]) == Some(ExpectedView(t.rows[k][column]))
  {
    var p := ToPayload(Backend.AnalysisOf(t));
    var row := Frontend.GridRows(Some(p))[k];
    var cell := t.rows[k][column];
    PayloadPositions(t, k, column);
    GridRowValue(t, k, column);
    ShownValue(cell);
    assert Frontend.Shown(Frontend.Get(row, column)) == ExpectedView(cell).shown;
  }

  /** What the browser shows for a filled cell. */
  lemma ShownValue(cell: Backend.Cell)
    ensures Frontend.Shown(ToJson(Backend.Fill(cell))) ==
      if BlankOnScreen(cell) then Frontend.Str(Frontend.EmDash) else ToJson(cell)
  {
  }

  /** Without a column named "id", the rendering as written gives the same view. */
  lemma AsWrittenShowsTableWithoutIdColumn(t: Backend.Table, k: nat, column: string)
    requires Backend.WellFormed(t) && k < |t.rows| && column in t.columns && "id" !in t.columns
    ensures var p := ToPayload(Backend.AnalysisOf(t));
      Frontend.RenderCellAsWritten(p, column, Frontend.GridRows(Some(p))[k]) == Some(ExpectedView(t.rows[k][column]))
  {
    var p := ToPayload(Backend.AnalysisOf(t));
    GridShowsTable(t, k, column);
    Backend.FilledDataKeepsPresentCells(t, k, column);
    assert "id" !in p.data.value[k];
    Frontend.AsWrittenAgreesWithoutIdField(p, column, k);
  }

  /** A table the back end can produce whose data has a column named "id": one row, `id = 5`, name "TBD". */
  function IdTable(): (t: Backend.Table)
    ensures Backend.WellFormed(t) && |t.rows| == 1 && "name" in t.columns && "id" in t.columns
    ensures t.rows[0]["id"] == Backend.Number(5.0) && t.rows[0]["name"] == Backend.Text("TBD")
  {
    var t := Backend.Table(["id", "name"], [map["id" := Backend.Number(5.0), "name" := Backend.Text("TBD")]]);
    assert t.rows[0].Keys == set c | c in t.columns;
    t
  }

  /** What the front end receives for `IdTable`, and the grid row it builds from row 0. */
  function IdPayload(): Frontend.Payload
  {
    ToPayload(Backend.AnalysisOf(IdTable()))
  }

  function IdRow(): Frontend.Record
  {
    Frontend.GridRows(Some(IdPayload()))[0]
  }

  /** Row 0 of `IdTable` is TBD in the "name" column; no row 4 is listed at all. */
  lemma IdTablePositions()
    ensures "name" in IdPayload().tbdPositions && "name" in IdPayload().missingPositions
    ensures 0 in IdPayload().tbdPositions["name"]
    ensures !Frontend.IncludesNumber(IdPayload().tbdPositions["name"], Some(4.0))
    ensures !Frontend.IncludesNumber(IdPayload().missingPositions["name"], Some(4.0))
  {
    var t := IdTable();
    assert Text.Upper("TBD") == "TBD";
    assert Backend.IsTbd(t.rows[0]["name"]);
    PayloadPositions(t, 0, "name");
    var p := IdPayload();
    assert p.tbdPositions["name"] == Backend.Positions(Backend.TbdMask(t, "name"));
    assert p.missingPositions["name"] == Backend.Positions(Backend.MissingMask(t, "name"));
    assert 4.0.Floor == 4;
  }

  /**
   * A cell whose `row.id - 1` is in neither list is painted transparent by the
   * rendering as written: the transparent clause of `RenderCellAsWritten`'s
   * contract, stated on its own so that the counterexample below stays small.
   */
  lemma UnlistedKeyIsTransparent(p: Frontend.Payload, column: string, row: Frontend.Record)
    requires column in p.missingPositions && column in p.tbdPositions
    requires !Frontend.IncludesNumber(p.tbdPositions[column], Frontend.RowKey(row))
    requires !Frontend.IncludesNumber(p.missingPositions[column], Frontend.RowKey(row))
    ensures Frontend.RenderCellAsWritten(p, column, row).value.background == Frontend.Transparent
  {
  }

  /** The grid row of `IdTable` carries the data's `id = 5`, so `row.id - 1` is 4. */
  lemma IdTableRowKey()
    ensures Frontend.RowKey(IdRow()) == Some(4.0)
  {
    GridRowValue(IdTable(), 0, "id");
  }

  /**
   * A data column named "id" overrides the synthetic id, so the rendering as
   * written looks the cells of that row up at the wrong position: the back end
   * lists row 0 of `IdTable` as TBD in the "name" column, but the grid probes
   * position 4 and paints the cell transparent instead of orange.
   */
  lemma IdColumnMisplacesClassification()
    ensures Frontend.RenderCellAsWritten(IdPayload(), "name", IdRow()).value.background == Frontend.Transparent
    ensures ExpectedView(IdTable().rows[0]["name"]).background == Frontend.OrangeTint
    ensures Frontend.RenderCell(IdPayload(), "name", 0, IdRow()) == Some(ExpectedView(IdTable().rows[0]["name"]))
  {
    IdTablePositions();
    IdTableRowKey();
    UnlistedKeyIsTransparent(IdPayload(), "name", IdRow());
    IdTableRenderedByPosition();
  }

  /** Classified by its position, the same cell gets the TBD view the table calls for. */
  lemma IdTableRenderedByPosition()
    ensures ExpectedView(IdTable().rows[0]["name"]).background == Frontend.OrangeTint
    ensures Frontend.RenderCell(IdPayload(), "name", 0, IdRow()) == Some(ExpectedView(IdTable().rows[0]["name"]))
  {
    assert Text.Upper("TBD") == "TBD";
    assert Backend.IsTbd(Backend.Text("TBD"));
    GridShowsTable(IdTable(), 0, "name");
  }
}

=== FILE: wrappers.dfy ===
/** Option and Result wrappers shared by the back end and the front end. */
module Wrappers {

  /** A value that may be absent (Python's None, JavaScript's null/undefined). */
  datatype Option<+T> = None | Some(value: T)

  /** Either a value or an error message (a Python `(value, None)` / `(None, message)` pair). */
  datatype Result<+T, +E> = Success(value: T) | Failure(error: E)
}
